=== FILE: README.md ===
# World clock: a verified model of the `WorldClock` controller

The world clock widget keeps two lists:

- a catalog of selectable cities, built from a public directory of countries;
- the ids of the cities currently shown on the clock grid.

Users add and remove clocks and search the catalog in a picker. For each shown city the widget formats the local time and date, classifies the hour as day or night, and shows the offset from the viewer's own time zone.

This project models that controller in Dafny and proves what its operations promise.

- `Optional`: the `Option` type.
- `Seqs`: the array operations the controller uses: `filter`, `find` and `slice(0, n)`. It also holds the facts about order and duplicates that the selection relies on.
- `Text`: `toLowerCase`, the regular-expression class `\s`, `replace(/\s+/g, '-')` and `includes`.
- `Decimal`: whole numbers written as decimal numerals, and read back.
- `Catalog`: the directory's country records and the catalog's cities. It covers:
  - the country-code fallback table;
  - time zone resolution;
  - the per-capital city records and their ids;
  - the whole catalog build;
  - the sort by name.
- `Clock`: what `getTimeForTimezone` makes of the strings the runtime's French formatter produces, and what `getTimeDifference` shows for the rounded hour difference. The en-US formatting and the `Date` arithmetic that produce that difference are the runtime's.
- `Widget`: the `WorldClock` class. Its fields `allCities` and `activeCities` are updated in place by:
  - `addCity`;
  - `removeCity`;
  - the catalog load;
  - `setDefaultCities`;
  - the selection step of `init`.

  Its `filterCities` query is a function that reads those fields.

The runtime services the code calls become parameters:

- the `Intl.DateTimeFormat` time zone check is `isValid: string -> bool`;
- French `localeCompare` is `precedes: (string, string) -> bool`, read as "compares at most 0". It is required to be a total preorder.
- the formatter's output is an `Option<Reading>`, where `None` means it threw;
- the rounded hour difference is an `Option<int>`.

The model follows the code in these places, where it is easy to misread:

- A country whose `timezones` list is present but empty is not skipped. An empty array passes the presence test, `find` yields nothing, and the fallback table is consulted.
- A country whose `capital` list is present but empty yields no city.
- When the first candidate the runtime accepts is the empty string, that candidate is falsy. The fallback table is used; the next accepted candidate is not.

## Model

| member | source | states |
|---|---|---|
| Catalog.FallbackTimezone | script.js:30-63 | An entry is returned exactly for the country codes the table lists; it is never empty and is the table's entry for that code. |
| Catalog.ResolveTimezone | script.js:230-243 | A resolved time zone is never empty, and it is either a candidate the runtime accepts or the fallback table's entry for the country code. |
| Catalog.ResolveTimezoneChoice | script.js:230-241 | When the runtime accepts no candidate, or the first accepted candidate is the empty string, the result is the fallback entry. When the first accepted candidate is not empty, the result is that candidate. |
| Catalog.DisplayName | script.js:245 | The French name when it is present and non-empty, otherwise the common name; the result is empty only when the common name is. |
| Catalog.CityId | script.js:249 | The id starts with the lower-cased country code and '-'; what follows contains no whitespace. |
| Catalog.CityIdNewYork | script.js:249 | The capital "New York" of "US" gets the id "us-new-york". |
| Catalog.CityIdTwoWords | script.js:249 | A capital of two space-free words separated by one space gets the id lower-code, '-', first word, '-', second word, all lower-cased. |
| Catalog.CityIdOfWord | script.js:249 | A capital without whitespace gets the id lower-code, '-', lower-cased capital. |
| Catalog.CityIdNoSpace | script.js:249 | An id contains no whitespace when the country code has none. |
| Catalog.CapitalCity | script.js:248-254 | The city is named after its capital, carries the country's code and the given time zone, and its id is derived from that code and name; the id has no whitespace when the code has none. |
| Catalog.CapitalCities | script.js:247-255 | One city is emitted per capital. |
| Catalog.CapitalCitiesSpec | script.js:247-255 | The k-th emitted city has: the k-th capital as its name, the derived id, the resolved time zone, the country's code and its display name. |
| Catalog.Contribution | script.js:228-255 | A country missing its capitals or its time zones adds nothing, and so does one whose time zone does not resolve. A country with both fields whose time zone resolves adds exactly one city per capital. |
| Catalog.ContributionResolved | script.js:243-255 | A country whose time zone resolves contributes exactly its capitals' cities on that time zone. |
| Catalog.BuildCatalog | script.js:227-256 | Every city of the unsorted catalog is one that some country record contributes. |
| Catalog.DuplicateCapitalIds | script.js:247-255 | A resolved record that lists the same capital at two positions contributes the same city, with the same id, at both. |
| Catalog.DuplicateParis | script.js:247-255 | France listing Paris twice, with Europe/Paris accepted, contributes two cities whose ids are equal. |
| Catalog.CityIdInjective | script.js:249 | Two ids built from codes of equal length are equal only when the lower-cased codes agree and the capitals give the same slug. |
| Catalog.UniqueById | script.js:227-256 | The deduplicated catalog has no two cities with the same id, and each of its cities comes from the input. |
| Catalog.UniqueByIdKeepsFirst | script.js:227-256 | Every city with no earlier city of the same id is kept. |
| Catalog.UniqueByIdIds | script.js:227-256 | Deduplication keeps exactly the input's set of ids. |
| Catalog.CatalogSound | script.js:227-256 | Every catalog city is well formed. Its id derives from its code and name. Its time zone is non-empty and either accepted by the runtime or the fallback entry for its code. It names a capital of a country record with that code. |
| Catalog.CatalogComplete | script.js:227-256 | Every capital of every country whose time zone resolves appears in the catalog. |
| Catalog.ContributionInCatalog | script.js:227-256 | Whatever one country contributes ends up in the catalog. |
| Catalog.SortByName | script.js:258 | The result is ordered by name under the locale order and is a permutation of the input. |
| Clock.NumberOfDigits | script.js:191-197 | `Number` of a non-empty string of digits is its decimal value. |
| Clock.NumberValue | script.js:191-197 | A text of whitespace alone reads as 0, and a text that reads as a number consists of digits and whitespace only: any other character makes `Number` NaN. |
| Clock.TimeForTimezone | script.js:171-204 | When formatting throws, the result is the sentinel ("--:--:--", "Fuseau invalide", day). Otherwise the formatted time and date are kept, and an hour that reads as NaN counts as night. |
| Clock.TwoDigitDayRule | script.js:191-199 | When the hour text is a bare numeral, it is day exactly when the hour lies in [6, 18). |
| Clock.SuffixedHourNeverDay | script.js:191-199 | An hour text with the French unit after the digits ("14 h") always counts as night. |
| Clock.TimeForTimezoneFixed | script.js:171-204 | The sentinel when formatting throws; otherwise the formatted time and date are kept. |
| Clock.FixedDayRule | script.js:191-199 | With the hour read by its leading digits, it is day exactly when the hour lies in [6, 18), whether or not a unit follows. |
| Clock.IntText | script.js:212 | `${d}` of a whole number: for a non-negative number, digits that read back as it; for a negative one, '-' then digits that read back as its magnitude. |
| Clock.TimeDifference | script.js:206-216 | The result is "—" when formatting throws and "Même heure" for zero. Otherwise it is '+' and the digits then "h" for a positive difference, or '-' and the digits of its magnitude then "h" for a negative one. |
| Clock.DifferenceRoundTrip | script.js:212 | Reading a difference text back gives the difference that was shown, so different differences never show alike. |
| Decimal.ParseShow | script.js:212 | Reading back the numeral written for a whole number gives that number. |
| Decimal.ShowInjective | script.js:212 | Different numbers are written differently. |
| Text.Lower | script.js:249 | The result has the input's length and no upper-case letter; every other character is kept, and each upper-case letter becomes its lower-case partner. |
| Text.LowerIdempotent | script.js:267-268 | Lower-casing twice is the same as lower-casing once. |
| Text.DashSpaces | script.js:249 | The result contains no whitespace and is no longer than the input. |
| Text.DashSpacesNoSpace | script.js:249 | A string without whitespace is left unchanged. |
| Text.DashSpacesRun | script.js:249 | A word, then a run of whitespace, then a rest becomes the word, one '-', and the rest treated alike. |
| Text.DropSpaces | script.js:191-197 | Only leading whitespace is removed; the remainder is a suffix of the input that starts with non-whitespace. |
| Text.ContainsEmpty | script.js:267-268 | Every string includes the empty string. |
| Text.ContainsWindow | script.js:267-268 | A string includes another exactly when the other equals one of its windows. |
| Seqs.Filter | script.js:265-268 | The result is a subsequence of the input, no longer than it; every element passing the test is in it, and every element in it passes. |
| Seqs.FilterCount | script.js:265-268 | Each passing element occurs in the result as often as in the input; failing ones do not occur. |
| Seqs.FirstIndex | script.js:230-237 | The result is the index of the first element that passes the test, or none when no element passes. |
| Seqs.Take | script.js:269 | The result is the input's first elements: all of them when there are at most n, otherwise exactly n. |
| Seqs.FilterAppend | script.js:135 | Filtering a concatenation filters each part. |
| Seqs.TakeFilterFirst | script.js:265-269 | After `filter` and `slice(0, n)`, every passing element preceded by fewer than n passing ones is kept. |
| Seqs.FilterDistinct | script.js:135 | Filtering a list without duplicates leaves none. |
| Widget.Added | script.js:126-132 | The selection keeps its old ids in order and contains the new id. It grows by one exactly when the id was absent, and stays duplicate-free. |
| Widget.Removed | script.js:134-138 | The id is gone; every other id stays as many times as it occurred, in its original order, and nothing new appears; a duplicate-free selection stays duplicate-free. |
| Widget.RemovedSingle | script.js:134-138 | Removing an id that occurs once leaves exactly the ids before and after it. |
| Widget.FilterUnchanged | script.js:134-138 | Removing an absent id changes nothing. |
| Widget.AddThenRemove | script.js:126-138 | Adding a new id and then removing it restores the selection. |
| Widget.CityNamed | script.js:68 | The city found bears the name and is the first catalog city that does; no city is found only when none bears the name. |
| Widget.FoundIds | script.js:66-70 | The lookup adds no more ids than there are names, and every id it adds belongs to a catalog city; FoundIdsSingle and FoundIdsAppend fix which ids and in what order. |
| Widget.FoundIdsSingle | script.js:67-69 | One name adds the id of the first city bearing it, or nothing when no city bears it. |
| Widget.FoundIdsAppend | script.js:66-70 | Looking up two lists of names in turn adds the ids found for the first list, then those found for the second, so every name adds its own id or nothing, in name order. |
| Widget.FoundIdsSecondMissing | script.js:66-70 | With four names of which only the second is borne by no city, as New York on the live directory, the lookup adds the first, third and fourth names' ids, in that order. |
| Widget.FoundIdsAll | script.js:66-70 | When every name is borne by some city, the lookup adds one id per name, in order: the id of the first city bearing it. |
| Widget.FoundIdsNone | script.js:66-70 | When no city bears any of the names, the lookup adds nothing. |
| Widget.FoundIdsMembers | script.js:66-70 | An id is added exactly when it is the id of the first city bearing one of the names. |
| Widget.FixedIdsInCatalog | script.js:73-79 | Every id of the fixed selection belongs to a city of the fixed catalog. |
| Widget.FixedDefaultsAgree | script.js:66-79 | The default lookup, run on the fixed catalog, picks exactly the fixed selection. |
| Widget.WorldClock.constructor | script.js:2-10 | Both the catalog and the selection start empty. |
| Widget.WorldClock.AddCity | script.js:126-132 | The selection becomes the added selection; the catalog is unchanged. |
| Widget.WorldClock.RemoveCity | script.js:134-138 | The selection becomes the removed selection; the catalog is unchanged. |
| Widget.WorldClock.LoadCatalog | script.js:225-258 | The catalog becomes a permutation of the built catalog, sorted by name; the selection is unchanged. |
| Widget.WorldClock.AppendCapitals | script.js:247-255 | The catalog grows by exactly the capitals' cities, in order; the selection is unchanged. |
| Widget.WorldClock.SetDefaultCities | script.js:65-81 | The selection grows by exactly the lookup of Paris, New York, Tokyo and London: each name's first city's id or nothing, in that order (FoundIdsSingle, FoundIdsAppend). When nothing is found and the selection was empty, the fixed selection and fixed catalog are installed instead. From an empty selection, every resulting id belongs to a catalog city. |
| Widget.WorldClock.AppendFound | script.js:66-70 | The selection grows by exactly the ids found for the names, in order; the catalog is unchanged. |
| Widget.WorldClock.RestoreSelection | script.js:17-22 | A stored selection replaces the current one. Without one, the defaults are applied. |
| Widget.WorldClock.FilterCities | script.js:262-269 | The result has at most 30 cities, in catalog order. Each is inactive and has a name or country that includes the term, ignoring case. Every such city preceded in the catalog by fewer than 30 such cities is among them; so when fewer than 30 are returned, all such cities are. |
| Widget.Eligible | script.js:265-268 | An active city never passes, a passing city always matches the term, and with the empty term exactly the inactive cities pass. |
| Widget.Matches | script.js:267-268 | A city matches exactly when the lower-cased term occurs at some position of its lower-cased name or country; the empty term matches every city. |
| Widget.OpenPickerLists | script.js:117-120 | Opening the picker lists the first 30 inactive catalog cities. |

## Left out

- Page construction and events are not modelled: `setupHTML`, `bindEvents`, `hideCityModal`, the modal's class toggling, and the click handlers of the clock cards and the picker entries. They are DOM plumbing.
- `renderClocks` is not modelled. It builds HTML, looks up each active id in the catalog and skips ids that are not found.
- `startClock` and the one-second `setInterval` refresh are left out: they depend on the clock and the timer.
- The constructor's `is24Hour`, `updateInterval` and `isLoading` fields are left out. They only steer formatting and rendering.
- Persistence is left out:
  - `localStorage` writes in `addCity` and `removeCity`;
  - the read in `init`;
  - the `JSON.stringify` and `JSON.parse` calls.

  The stored selection enters `RestoreSelection` already decoded. A stored value that is not an array of strings is not represented.
- The `fetch` of the country directory and the decoding of its JSON are left out. A failed fetch is not modelled either. In the code it is not caught: `loadAllCitiesFromAPI` has no `try`, so `init` stops at its `await`; the selection is then never restored, neither the stored nor the default one, and the clock never starts. The model's `RestoreSelection` covers only the path where the load succeeded. Country records arrive as typed values, so a malformed record (a `capital` that is not an array, a missing `cca2`) is not represented.
- The `console.log` of the catalog size is left out.
- Widget.WorldClock.LoadCatalog: builds the catalog as the code does, without removing cities with repeated ids, so the catalog's ids need not be unique. See Findings; `UniqueById` is the deduplicated form.
- `Intl.DateTimeFormat` validity and French `localeCompare` are parameters, not models of the ICU data. The locale order is required to be a total preorder.
- The French time and date patterns, the 12/24-hour choice and `Date` arithmetic are the runtime's. The model starts from the strings and the rounded difference they produce.
- `Math.round` is not modelled. Its result comes in as an integer, and a rounded `-0` appears as `Some(0)`, which shows "Même heure" as `-0 === 0` does.
- Text.Lower: lower-cases ASCII and Latin-1 letters only. Other scripts and the special cases of Unicode case mapping are not covered.
- Clock.NumberValue: treats signed, fractional, exponent, hexadecimal and "Infinity" numerals as NaN. Hour texts never take those forms.
- Catalog.FallbackTimezone: returns nothing for a code that names an inherited object property ("constructor", "toString"). In the code, the table lookup would yield a truthy function for such a code.
- Catalog.SortByName: proves the result sorted and a permutation, but not that cities with equal names keep their directory order. The runtime's sort is stable.
- Widget.WorldClock.LoadCatalog: states the same sorted permutation, without the stable order of equal names.

## Findings

| source | as written | input that shows it | evidently intended | confidence | as-written member | corrected member |
|---|---|---|---|---|---|---|
| script.js:247-255 | One city is pushed per listed capital, and repeated ids are never removed, although each city id is meant to be unique and the catalog deduplicated. | a record `FR`, "France", capitals ["Paris", "Paris"], time zones ["Europe/Paris"], with Europe/Paris accepted: two cities with id "fr-paris" | Only the first city bearing each id is kept | low (the live directory may list no repeated capital); not executed | Catalog.DuplicateParis | Catalog.UniqueById |
| script.js:191-199 | The hour is read with `Number()` from the French hour-only format, which writes "HH 'h'", so `Number` yields NaN. | hour text "14 h" at 14:00: isDay is false | The formatted hour is read as 14, giving isDay true for 6 ≤ h < 18 | medium (depends on the runtime's French hour pattern); not executed | Clock.SuffixedHourNeverDay | Clock.FixedDayRule |

=== FILE: catalog.dfy ===
/**
 * The catalog builder: from the country records of the remote directory to the
 * list of selectable cities, one per capital of every country whose time zone can
 * be resolved, sorted by city name.
 */
module Catalog {
  import opened Optional
  import opened Seqs
  import opened Text

  /**
   * A country record as decoded from the directory. `capitals` and `timezones` are
   * `None` when the field is missing; `frenchName` is the French translation of the
   * common name, when there is one.
   */
  datatype Country = Country(
    code: string,
    commonName: string,
    frenchName: Option<string>,
    capitals: Option<seq<string>>,
    timezones: Option<seq<string>>)

  /** A selectable city. */
  datatype City = City(id: string, name: string, timezone: string, country: string, countryCode: string)

  /** The fixed country-code table consulted when no candidate time zone is usable. */
  const FallbackTable: map<string, string> := map[
    "FR" := "Europe/Paris", "GB" := "Europe/London", "IE" := "Europe/Dublin",
    "DE" := "Europe/Berlin", "ES" := "Europe/Madrid", "IT" := "Europe/Rome",
    "NL" := "Europe/Amsterdam", "BE" := "Europe/Brussels", "CH" := "Europe/Zurich",
    "US" := "America/New_York", "CA" := "America/Toronto", "MX" := "America/Mexico_City",
    "BR" := "America/Sao_Paulo", "AR" := "America/Argentina/Buenos_Aires",
    "JP" := "Asia/Tokyo", "CN" := "Asia/Shanghai", "KR" := "Asia/Seoul",
    "IN" := "Asia/Kolkata", "TH" := "Asia/Bangkok",
    "AU" := "Australia/Sydney", "NZ" := "Pacific/Auckland",
    "RU" := "Europe/Moscow", "TR" := "Europe/Istanbul", "ZA" := "Africa/Johannesburg"]

  /**
   * `getFallbackTimezone`: the table entry for `code`, or null. The `|| null` of the
   * lookup only matters for an empty entry, and the table has none, so exactly the
   * listed codes resolve.
   */
  function FallbackTimezone(code: string): (r: Option<string>)
    ensures r.Some? <==> code in FallbackTable
    ensures r.Some? ==> r.value != "" && r.value == FallbackTable[code]
  {
    if code in FallbackTable && FallbackTable[code] != "" then Some(FallbackTable[code]) else None
  }

  /**
   * `translations?.fra?.common || name.common`: the French name unless it is missing
   * or empty (falsy), the common name otherwise.
   */
  function DisplayName(c: Country): (r: string)
    ensures c.frenchName.Some? && c.frenchName.value != "" ==> r == c.frenchName.value
    ensures c.frenchName.None? || c.frenchName.value == "" ==> r == c.commonName
    ensures r == "" ==> c.commonName == ""
  {
    if c.frenchName.Some? && c.frenchName.value != "" then c.frenchName.value else c.commonName
  }

  /** The id of a capital's city: lower-cased code, '-', lower-cased capital with each `\s` run turned into '-'. */
  function CityId(code: string, capital: string): (r: string)
    ensures |r| > |code| && r[..|code|] == Lower(code) && r[|code|] == '-'
    ensures forall i :: |code| < i < |r| ==> !IsSpace(r[i])
  {
    var a, b := Lower(code) + "-", DashSpaces(Lower(capital));
    assert forall i :: |code| < i < |a + b| ==> (a + b)[i] == b[i - |a|];
    a + b
  }

  /** The slug of a two-word capital: "New York" in the US gives "us-new-york". */
  lemma CityIdNewYork(code: string, capital: string)
    requires code == "US" && capital == "New York"
    ensures CityId(code, capital) == "us-new-york"
  {
    var first, second := "New", "York";
    assert NoSpace(first) && NoSpace(second);
    assert capital == first + " " + second;
    CityIdTwoWords(code, first, second);
    assert Lower(code) == "us" by { forall i | 0 <= i < 2 ensures Lower(code)[i] == "us"[i] { } }
    assert Lower(first) == "new" by { forall i | 0 <= i < 3 ensures Lower(first)[i] == "new"[i] { } }
    assert Lower(second) == "york" by { forall i | 0 <= i < 4 ensures Lower(second)[i] == "york"[i] { } }
  }

  /** A capital of two words separated by one space: both words lower-cased, joined by '-'. */
  lemma CityIdTwoWords(code: string, first: string, second: string)
    requires NoSpace(first) && NoSpace(second) && second != []
    ensures CityId(code, first + " " + second) == Lower(code) + "-" + Lower(first) + "-" + Lower(second)
  {
    var lf, ls := Lower(first), Lower(second);
    LowerAppend(first + " ", second);
    LowerAppend(first, " ");
    assert Lower(" ") == " ";
    LowerNoSpace(first);
    LowerNoSpace(second);
    assert !IsSpace(ls[0]);
    DashSpacesRun(lf, " ", ls);
    DashSpacesNoSpace(ls);
  }

  /** For a capital without `\s`, the id is just the two lower-cased parts joined by '-'. */
  lemma CityIdOfWord(code: string, capital: string)
    requires NoSpace(capital)
    ensures CityId(code, capital) == Lower(code) + "-" + Lower(capital)
  {
    LowerNoSpace(capital);
    DashSpacesNoSpace(Lower(capital));
  }

  /** An id never contains `\s` when the country code does not: it can be stored and matched as one token. */
  lemma CityIdNoSpace(code: string, capital: string)
    requires NoSpace(code)
    ensures NoSpace(CityId(code, capital))
  {
    LowerNoSpace(code);
    var id := CityId(code, capital);
    forall i | 0 <= i < |code| ensures !IsSpace(id[i]) {
      assert id[i] == id[..|code|][i] == Lower(code)[i];
    }
  }

  /**
   * The time zone a country's cities get: the first candidate the runtime accepts,
   * unless it is the empty string (which is falsy); otherwise the fallback table.
   */
  function ResolveTimezone(candidates: seq<string>, code: string, isValid: string -> bool): (r: Option<string>)
    ensures r.Some? ==> r.value != ""
    ensures r.Some? ==> (r.value in candidates && isValid(r.value)) || FallbackTimezone(code) == r
  {
    var found := FirstIndex(candidates, isValid);
    if found.Some? && candidates[found.value] != "" then Some(candidates[found.value])
    else FallbackTimezone(code)
  }

  /**
   * Which time zone is chosen: the fallback when no candidate is accepted or when the
   * first accepted one is empty, and the first accepted candidate otherwise.
   */
  lemma ResolveTimezoneChoice(candidates: seq<string>, code: string, isValid: string -> bool)
    ensures (forall i :: 0 <= i < |candidates| ==> !isValid(candidates[i])) ==>
              ResolveTimezone(candidates, code, isValid) == FallbackTimezone(code)
    ensures forall i :: (0 <= i < |candidates| && isValid(candidates[i]) && candidates[i] != ""
              && (forall j :: 0 <= j < i ==> !isValid(candidates[j]))) ==>
              ResolveTimezone(candidates, code, isValid) == Some(candidates[i])
    ensures forall i :: (0 <= i < |candidates| && isValid(candidates[i]) && candidates[i] == ""
              && (forall j :: 0 <= j < i ==> !isValid(candidates[j]))) ==>
              ResolveTimezone(candidates, code, isValid) == FallbackTimezone(code)
  {
  }

  /** The city emitted for one capital of `c` on time zone `tz`. */
  function CapitalCity(c: Country, capital: string, tz: string): (r: City)
    ensures r.id == CityId(r.countryCode, r.name)
    ensures r.name == capital && r.countryCode == c.code && r.timezone == tz
    ensures NoSpace(c.code) ==> NoSpace(r.id)
  {
    var id := CityId(c.code, capital);
    assert NoSpace(c.code) ==> NoSpace(id) by {
      if NoSpace(c.code) { CityIdNoSpace(c.code, capital); }
    }
    City(id, capital, tz, DisplayName(c), c.code)
  }

  /** The cities for `capitals`, in order: what the inner loop of the builder appends. */
  function CapitalCities(c: Country, capitals: seq<string>, tz: string): (r: seq<City>)
    ensures |r| == |capitals|
  {
    if capitals == [] then []
    else CapitalCities(c, capitals[..|capitals| - 1], tz) + [CapitalCity(c, capitals[|capitals| - 1], tz)]
  }

  /**
   * A resolved country yields one city per capital, in capital order, each named
   * after its capital, with the derived id, the resolved time zone, the country's
   * code and its display name.
   */
  lemma {:induction false} CapitalCitiesSpec(c: Country, capitals: seq<string>, tz: string)
    ensures |CapitalCities(c, capitals, tz)| == |capitals|
    ensures forall k :: 0 <= k < |capitals| ==>
              var city := CapitalCities(c, capitals, tz)[k];
              city.name == capitals[k] && city.timezone == tz && city.countryCode == c.code
              && city.country == DisplayName(c) && city.id == CityId(c.code, capitals[k])
  {
    if capitals != [] {
      var n := |capitals| - 1;
      CapitalCitiesSpec(c, capitals[..n], tz);
      forall k | 0 <= k < n ensures capitals[..n][k] == capitals[k] { }
    }
  }

  lemma {:induction false} CapitalCitiesAt(c: Country, capitals: seq<string>, tz: string, k: nat)
    requires k < |capitals|
    ensures |CapitalCities(c, capitals, tz)| == |capitals|
    ensures CapitalCities(c, capitals, tz)[k] == CapitalCity(c, capitals[k], tz)
  {
    CapitalCitiesSpec(c, capitals, tz);
  }

  /** The cities for one more capital: the city of that capital appended to those before it. */
  lemma CapitalCitiesStep(c: Country, capitals: seq<string>, k: nat, tz: string)
    requires k < |capitals|
    ensures CapitalCities(c, capitals[..k + 1], tz) == CapitalCities(c, capitals[..k], tz) + [CapitalCity(c, capitals[k], tz)]
  {
    assert capitals[..k + 1][..k] == capitals[..k];
  }

  /** What one country record adds to the catalog. */
  function Contribution(c: Country, isValid: string -> bool): (r: seq<City>)
    ensures c.capitals.None? || c.timezones.None? ==> r == []
    ensures c.capitals.Some? && c.timezones.Some? && ResolveTimezone(c.timezones.value, c.code, isValid).None? ==> r == []
    ensures c.capitals.Some? && c.timezones.Some? && ResolveTimezone(c.timezones.value, c.code, isValid).Some? ==>
              |r| == |c.capitals.value|
  {
    if c.capitals.None? || c.timezones.None? then []
    else match ResolveTimezone(c.timezones.value, c.code, isValid)
      case None => []
      case Some(tz) => CapitalCities(c, c.capitals.value, tz)
  }

  /** A resolved country contributes exactly its capitals' cities. */
  lemma ContributionResolved(c: Country, isValid: string -> bool, tz: string)
    requires c.capitals.Some? && c.timezones.Some?
    requires ResolveTimezone(c.timezones.value, c.code, isValid) == Some(tz)
    ensures Contribution(c, isValid) == CapitalCities(c, c.capitals.value, tz)
  {
  }

  /** The catalog before sorting: each country's contribution, in directory order. */
  function BuildCatalog(countries: seq<Country>, isValid: string -> bool): (r: seq<City>)
    ensures forall k :: 0 <= k < |r| ==> exists i :: 0 <= i < |countries| && r[k] in Contribution(countries[i], isValid)
  {
    if countries == [] then []
    else
      var n := |countries| - 1;
      var before, last := BuildCatalog(countries[..n], isValid), Contribution(countries[n], isValid);
      assert forall i :: 0 <= i < n ==> countries[..n][i] == countries[i];
      before + last
  }

  /**
   * A well-formed catalog city: its id is derived from its code and name, its time
   * zone is a candidate the runtime accepts or the table's entry for its code, and
   * it names a capital of a country record with that code.
   */
  ghost predicate FromDirectory(city: City, countries: seq<Country>, isValid: string -> bool) {
    && city.id == CityId(city.countryCode, city.name)
    && city.timezone != ""
    && (isValid(city.timezone) || FallbackTimezone(city.countryCode) == Some(city.timezone))
    && exists i :: 0 <= i < |countries| && countries[i].code == city.countryCode
         && countries[i].capitals.Some? && city.name in countries[i].capitals.value
  }

  /** Every city of the catalog is well formed. */
  lemma {:induction false} CatalogSound(countries: seq<Country>, isValid: string -> bool)
    ensures forall k :: 0 <= k < |BuildCatalog(countries, isValid)| ==>
              FromDirectory(BuildCatalog(countries, isValid)[k], countries, isValid)
  {
    if countries != [] {
      var n := |countries| - 1;
      var init := countries[..n];
      CatalogSound(init, isValid);
      var before := BuildCatalog(init, isValid);
      var last := Contribution(countries[n], isValid);
      assert BuildCatalog(countries, isValid) == before + last;
      forall k | 0 <= k < |before| + |last|
        ensures FromDirectory((before + last)[k], countries, isValid)
      {
        if k < |before| {
          var city := before[k];
          assert FromDirectory(city, init, isValid);
          var i :| 0 <= i < |init| && init[i].code == city.countryCode
                   && init[i].capitals.Some? && city.name in init[i].capitals.value;
          assert countries[i] == init[i];
          assert (before + last)[k] == city;
        } else {
          var c := countries[n];
          var city := last[k - |before|];
          assert (before + last)[k] == city;
          CapitalCitiesSpec(c, c.capitals.value, ResolveTimezone(c.timezones.value, c.code, isValid).value);
          assert city.name == c.capitals.value[k - |before|];
        }
      }
    }
  }

  /** Conversely, every capital of every country whose time zone resolves is in the catalog. */
  lemma CatalogComplete(countries: seq<Country>, isValid: string -> bool, i: nat, k: nat)
    requires i < |countries|
    requires countries[i].capitals.Some? && countries[i].timezones.Some?
    requires k < |countries[i].capitals.value|
    requires ResolveTimezone(countries[i].timezones.value, countries[i].code, isValid).Some?
    ensures CapitalCity(countries[i], countries[i].capitals.value[k],
              ResolveTimezone(countries[i].timezones.value, countries[i].code, isValid).value)
            in BuildCatalog(countries, isValid)
  {
    var c := countries[i];
    var tz := ResolveTimezone(c.timezones.value, c.code, isValid).value;
    var city := CapitalCity(c, c.capitals.value[k], tz);
    ContributionResolved(c, isValid, tz);
    CapitalCitiesAt(c, c.capitals.value, tz, k);
    ContributionInCatalog(countries, isValid, i, k, city);
  }

  /** What a country contributes ends up in the catalog. */
  lemma {:induction false} ContributionInCatalog(countries: seq<Country>, isValid: string -> bool, i: nat, k: nat, x: City)
    requires i < |countries| && k < |Contribution(countries[i], isValid)|
    requires Contribution(countries[i], isValid)[k] == x
    ensures x in BuildCatalog(countries, isValid)
  {
    var n := |countries| - 1;
    var before, last := BuildCatalog(countries[..n], isValid), Contribution(countries[n], isValid);
    BuildCatalogLast(countries, isValid);
    if i < n {
      assert countries[..n][i] == countries[i];
      ContributionInCatalog(countries[..n], isValid, i, k, x);
      InAppendLeft(before, last, x);
    } else {
      assert i == n;
      InAppendRight(before, Contribution(countries[i], isValid), k, x);
    }
  }

  lemma InAppendLeft(a: seq<City>, b: seq<City>, x: City)
    requires x in a
    ensures x in a + b
  {
  }

  lemma InAppendRight(a: seq<City>, b: seq<City>, k: nat, x: City)
    requires k < |b| && b[k] == x
    ensures x in a + b
  {
    assert (a + b)[|a| + k] == x;
  }

  lemma BuildCatalogLast(countries: seq<Country>, isValid: string -> bool)
    requires countries != []
    ensures BuildCatalog(countries, isValid) ==
              BuildCatalog(countries[..|countries| - 1], isValid) + Contribution(countries[|countries| - 1], isValid)
  {
  }

  /** The ids of the catalog's cities. */
  function IdsOf(cities: seq<City>): set<string> {
    set c | c in cities :: c.id
  }

  /**
   * The builder emits one city per listed capital and never removes repeats, so a
   * record that lists the same capital twice yields two cities with the same id.
   */
  lemma DuplicateCapitalIds(c: Country, isValid: string -> bool, i: nat, j: nat)
    requires c.capitals.Some? && c.timezones.Some?
    requires ResolveTimezone(c.timezones.value, c.code, isValid).Some?
    requires i < j < |c.capitals.value| && c.capitals.value[i] == c.capitals.value[j]
    ensures |Contribution(c, isValid)| == |c.capitals.value|
    ensures Contribution(c, isValid)[i] == Contribution(c, isValid)[j]
  {
    var tz := ResolveTimezone(c.timezones.value, c.code, isValid).value;
    ContributionResolved(c, isValid, tz);
    CapitalCitiesAt(c, c.capitals.value, tz, i);
    CapitalCitiesAt(c, c.capitals.value, tz, j);
  }

  /** France listing Paris twice: the catalog receives "fr-paris" twice. */
  lemma DuplicateParis(c: Country, isValid: string -> bool)
    requires c == Country("FR", "France", None, Some(["Paris", "Paris"]), Some(["Europe/Paris"]))
    requires isValid("Europe/Paris")
    ensures |Contribution(c, isValid)| == 2
    ensures Contribution(c, isValid)[0].id == Contribution(c, isValid)[1].id
  {
    assert FirstIndex(c.timezones.value, isValid) == Some(0);
    DuplicateCapitalIds(c, isValid, 0, 1);
  }

  /**
   * Ids of cities of the same code length collide only when the lower-cased codes
   * agree and the capitals give the same slug: repeats come from one country.
   */
  lemma CityIdInjective(a: string, x: string, b: string, y: string)
    requires |a| == |b| && CityId(a, x) == CityId(b, y)
    ensures Lower(a) == Lower(b) && DashSpaces(Lower(x)) == DashSpaces(Lower(y))
  {
    var ia, ib := CityId(a, x), CityId(b, y);
    assert Lower(a) == ia[..|a|];
    assert Lower(b) == ib[..|b|];
    assert DashSpaces(Lower(x)) == ia[|a| + 1..];
    assert DashSpaces(Lower(y)) == ib[|b| + 1..];
  }

  /**
   * The catalog with unique ids, as intended: the first city bearing each id is
   * kept, later ones with the same id are dropped, and the order is kept.
   */
  function UniqueById(cities: seq<City>): (r: seq<City>)
    ensures forall i, j :: 0 <= i < j < |r| ==> r[i].id != r[j].id
    ensures forall i :: 0 <= i < |r| ==> r[i] in cities
  {
    if cities == [] then []
    else
      var n := |cities| - 1;
      var u, last := UniqueById(cities[..n]), cities[n];
      assert forall i :: 0 <= i < |u| ==> u[i] in cities by {
        forall i | 0 <= i < |u| ensures u[i] in cities { assert u[i] in cities[..n]; }
      }
      if last.id in IdsOf(u) then u
      else
        assert forall i :: 0 <= i < |u| ==> u[i].id != last.id by {
          forall i | 0 <= i < |u| ensures u[i].id != last.id { assert u[i] in u; }
        }
        u + [last]
  }

  /** A city with no earlier city of the same id survives deduplication. */
  lemma {:induction false} UniqueByIdKeepsFirst(cities: seq<City>)
    ensures forall k :: 0 <= k < |cities| && (forall j :: 0 <= j < k ==> cities[j].id != cities[k].id) ==>
              cities[k] in UniqueById(cities)
  {
    if cities != [] {
      var n := |cities| - 1;
      var init := cities[..n];
      UniqueByIdKeepsFirst(init);
      var u, last := UniqueById(init), cities[n];
      forall k | 0 <= k < |cities| && (forall j :: 0 <= j < k ==> cities[j].id != cities[k].id)
        ensures cities[k] in UniqueById(cities)
      {
        if k < n {
          assert init[k] == cities[k];
          assert forall j :: 0 <= j < k ==> init[j] == cities[j];
          assert cities[k] in u;
        }
      }
    }
  }

  /** Deduplication keeps every id and adds none. */
  lemma UniqueByIdIds(cities: seq<City>)
    ensures IdsOf(UniqueById(cities)) == IdsOf(cities)
  {
    var r := UniqueById(cities);
    UniqueByIdKeepsFirst(cities);
    forall id | id in IdsOf(r) ensures id in IdsOf(cities) {
      var x :| x in r && x.id == id;
      assert x in cities;
    }
    forall id | id in IdsOf(cities) ensures id in IdsOf(r) {
      var first := FirstIndex(cities, (c: City) => c.id == id);
      assert first.Some? by {
        var x :| x in cities && x.id == id;
        var i :| 0 <= i < |cities| && cities[i] == x;
      }
      var k := first.value;
      assert cities[k] in r;
    }
  }

  /** `precedes(a, b)`: `a.localeCompare(b, 'fr') <= 0`. */
  ghost predicate TotalPreorder(precedes: (string, string) -> bool) {
    && (forall a, b :: precedes(a, b) || precedes(b, a))
    && (forall a, b, c :: precedes(a, b) && precedes(b, c) ==> precedes(a, c))
  }

  ghost predicate SortedByName(cities: seq<City>, precedes: (string, string) -> bool) {
    forall i, j :: 0 <= i < j < |cities| ==> precedes(cities[i].name, cities[j].name)
  }

  /**
   * The catalog sort by name: a stable insertion of each city after every city
   * whose name does not come strictly after it.
   */
  method SortByName(cities: seq<City>, precedes: (string, string) -> bool) returns (sorted: seq<City>)
    requires TotalPreorder(precedes)
    ensures SortedByName(sorted, precedes)
    ensures multiset(sorted) == multiset(cities)
  {
    sorted := [];
    for i := 0 to |cities|
      invariant SortedByName(sorted, precedes)
      invariant multiset(sorted) == multiset(cities[..i])
    {
      var c := cities[i];
      var j := 0;
      while j < |sorted| && precedes(sorted[j].name, c.name)
        invariant 0 <= j <= |sorted|
        invariant forall k :: 0 <= k < j ==> precedes(sorted[k].name, c.name)
      {
        j := j + 1;
      }
      InsertSorted(sorted, c, j, precedes);
      InsertPermutes(sorted, c, j);
      sorted := sorted[..j] + [c] + sorted[j..];
      assert cities[..i + 1] == cities[..i] + [c];
    }
    assert cities[..|cities|] == cities;
  }

  /** Placing `c` after the cities that precede it and before the first that does not keeps the order. */
  lemma InsertSorted(sorted: seq<City>, c: City, j: nat, precedes: (string, string) -> bool)
    requires TotalPreorder(precedes) && SortedByName(sorted, precedes) && j <= |sorted|
    requires forall k :: 0 <= k < j ==> precedes(sorted[k].name, c.name)
    requires j < |sorted| ==> !precedes(sorted[j].name, c.name)
    ensures SortedByName(sorted[..j] + [c] + sorted[j..], precedes)
  {
    var r := sorted[..j] + [c] + sorted[j..];
    forall p, q | 0 <= p < q < |r| ensures precedes(r[p].name, r[q].name) {
      if q < j {
        assert r[p] == sorted[p] && r[q] == sorted[q];
      } else if q == j {
        assert r[p] == sorted[p];
      } else if p < j {
        assert r[p] == sorted[p] && r[q] == sorted[q - 1];
      } else if p == j {
        assert r[q] == sorted[q - 1];
        assert precedes(c.name, sorted[j].name);
        if q - 1 > j { assert precedes(sorted[j].name, sorted[q - 1].name); }
      } else {
        assert r[p] == sorted[p - 1] && r[q] == sorted[q - 1];
      }
    }
  }

  /** Inserting `c` anywhere adds exactly one `c` to the multiset. */
  lemma InsertPermutes(sorted: seq<City>, c: City, j: nat)
    requires j <= |sorted|
    ensures multiset(sorted[..j] + [c] + sorted[j..]) == multiset(sorted) + multiset{c}
  {
    assert sorted[..j] + sorted[j..] == sorted;
  }
}

=== FILE: clock.dfy ===
/**
 * The clock evaluator: what `getTimeForTimezone` and `getTimeDifference` make of the
 * runtime's locale formatting. The formatting itself (the time zone database, the
 * French date and time patterns, `Date` arithmetic) is foreign: it arrives here as
 * the strings it produced, or as `None` when it threw for an unknown time zone.
 */
module Clock {
  import opened Optional
  import opened Text
  import opened Decimal

  /** The record `getTimeForTimezone` returns. */
  datatype TimeDisplay = TimeDisplay(time: string, date: string, isDay: bool)

  /**
   * What the French formatter wrote for the current instant in the target zone:
   * the time in the chosen 12/24-hour style, the long date, and the hour alone
   * (24-hour style, two digits).
   */
  datatype Reading = Reading(time: string, date: string, hourText: string)

  /** The display used when formatting threw: an unknown time zone shows as daytime. */
  const InvalidZone: TimeDisplay := TimeDisplay("--:--:--", "Fuseau invalide", true)

  /** The marker `getTimeDifference` shows when formatting threw (U+2014, an em dash). */
  const NoDifference: string := "\U{2014}"

  /** The text for a zero difference ("Même heure"). */
  const SameHour: string := "M\U{00EA}me heure"

  /** The day rule: the hour lies in [6, 18). */
  predicate IsDayHour(h: nat) {
    6 <= h < 18
  }

  /** A character of `s` that is not `\s` survives trimming. */
  lemma TrimKeeps(s: string, i: nat)
    requires i < |s| && !IsSpace(s[i])
    ensures s[i] in Trim(s)
  {
    var u := DropSpaces(s);
    var k := |s| - |u|;
    assert i >= k;
    assert u[i - k] == s[i];
    var t := DropTrailingSpaces(u);
    assert i - k < |t|;
    assert t[i - k] == s[i];
  }

  /**
   * `Number(text)` for the texts a formatter writes: surrounding `\s` is ignored,
   * the empty text is 0, a run of digits is its value, and anything else is NaN (`None`).
   */
  function NumberValue(text: string): (r: Option<nat>)
    ensures AllSpace(text) ==> r == Some(0)
    ensures r.Some? ==> forall i :: 0 <= i < |text| ==> IsDigit(text[i]) || IsSpace(text[i])
  {
    var t := Trim(text);
    assert forall i :: 0 <= i < |text| && !IsDigit(text[i]) && !IsSpace(text[i]) ==> text[i] in t by {
      forall i | 0 <= i < |text| && !IsDigit(text[i]) && !IsSpace(text[i]) ensures text[i] in t {
        TrimKeeps(text, i);
      }
    }
    if t == [] then Some(0)
    else if AllDigits(t) then Some(Parse(t))
    else None
  }

  /** A numeral of digits alone reads as its value. */
  lemma NumberOfDigits(text: string)
    requires AllDigits(text) && text != []
    ensures NumberValue(text) == Some(Parse(text))
  {
    assert !IsSpace(text[0]) && !IsSpace(text[|text| - 1]);
    assert DropSpaces(text) == text;
  }

  /**
   * `getTimeForTimezone` as written: the formatted time and date, and `isDay` from
   * the comparison `hour >= 6 && hour < 18` on `Number(hourText)`, where NaN
   * compares false; the sentinel when formatting threw.
   */
  function TimeForTimezone(reading: Option<Reading>): (r: TimeDisplay)
    ensures reading.None? ==> r == InvalidZone
    ensures reading.Some? ==> r.time == reading.value.time && r.date == reading.value.date
    ensures reading.Some? && NumberValue(reading.value.hourText).None? ==> !r.isDay
  {
    match reading
    case None => InvalidZone
    case Some(rd) =>
      var hour := NumberValue(rd.hourText);
      TimeDisplay(rd.time, rd.date, hour.Some? && hour.value >= 6 && hour.value < 18)
  }

  /** A bare numeral of digits gives the day rule on its value. */
  lemma TwoDigitDayRule(time: string, date: string, hourText: string)
    requires AllDigits(hourText) && hourText != []
    ensures TimeForTimezone(Some(Reading(time, date, hourText))).isDay <==> IsDayHour(Parse(hourText))
  {
    NumberOfDigits(hourText);
  }

  /**
   * When the hour text carries a unit after the digits, as the French hour-only
   * pattern "HH 'h'" writes it ("14 h"), `Number` reads NaN and every hour counts
   * as night.
   */
  lemma SuffixedHourNeverDay(time: string, date: string, digits: string)
    requires AllDigits(digits)
    ensures !TimeForTimezone(Some(Reading(time, date, digits + " h"))).isDay
  {
    var text := digits + " h";
    assert text[|digits| + 1] == 'h';
  }

  /** The longest prefix of `s` made of digits. */
  function DigitPrefix(s: string): (r: string)
    ensures AllDigits(r) && r <= s
    ensures |r| == |s| || !IsDigit(s[|r|])
  {
    if s != [] && IsDigit(s[0]) then [s[0]] + DigitPrefix(s[1..]) else []
  }

  lemma {:induction false} DigitPrefixOf(digits: string, rest: string)
    requires AllDigits(digits)
    requires rest == [] || !IsDigit(rest[0])
    ensures DigitPrefix(digits + rest) == digits
  {
    if digits == [] {
      assert digits + rest == rest;
    } else {
      assert (digits + rest)[0] == digits[0];
      assert (digits + rest)[1..] == digits[1..] + rest;
      DigitPrefixOf(digits[1..], rest);
      assert digits == [digits[0]] + digits[1..];
    }
  }

  /** `parseInt(text, 10)` for unsigned numerals: the leading digits after any `\s`, NaN when there are none. */
  function LeadingNumber(text: string): Option<nat> {
    var digits := DigitPrefix(DropSpaces(text));
    if digits == [] then None else Some(Parse(digits))
  }

  /** `getTimeForTimezone` with the hour read by `parseInt`, so that a unit after the digits is ignored. */
  function TimeForTimezoneFixed(reading: Option<Reading>): (r: TimeDisplay)
    ensures reading.None? ==> r == InvalidZone
    ensures reading.Some? ==> r.time == reading.value.time && r.date == reading.value.date
  {
    match reading
    case None => InvalidZone
    case Some(rd) =>
      var hour := LeadingNumber(rd.hourText);
      TimeDisplay(rd.time, rd.date, hour.Some? && IsDayHour(hour.value))
  }

  /**
   * With the hour read by `parseInt`, the day rule holds whatever follows the
   * digits: plain "14" and French "14 h" both give the hour 14.
   */
  lemma FixedDayRule(time: string, date: string, digits: string, unit: string)
    requires AllDigits(digits) && digits != []
    requires unit == [] || !IsDigit(unit[0])
    ensures TimeForTimezoneFixed(Some(Reading(time, date, digits + unit))).isDay <==> IsDayHour(Parse(digits))
  {
    LeadingNumberOf(digits, unit);
  }

  /** `parseInt` reads the digits before a unit. */
  lemma LeadingNumberOf(digits: string, unit: string)
    requires AllDigits(digits) && digits != []
    requires unit == [] || !IsDigit(unit[0])
    ensures LeadingNumber(digits + unit) == Some(Parse(digits))
  {
    var text := digits + unit;
    assert text[0] == digits[0];
    assert !IsSpace(text[0]);
    assert DropSpaces(text) == text;
    DigitPrefixOf(digits, unit);
  }

  /** `${d}` for a whole number: a minus sign before the digits of a negative one. */
  function IntText(d: int): (r: string)
    ensures d >= 0 ==> AllDigits(r) && r != [] && Parse(r) == d
    ensures d < 0 ==> |r| >= 2 && r[0] == '-' && AllDigits(r[1..]) && Parse(r[1..]) == -d
  {
    if d < 0 then
      ParseShow(-d);
      assert ("-" + Show(-d))[1..] == Show(-d);
      "-" + Show(-d)
    else
      ParseShow(d);
      Show(d)
  }

  /**
   * `getTimeDifference` given the rounded hour difference (`None` when formatting
   * threw): "Même heure" for zero, otherwise the signed count followed by "h".
   */
  function TimeDifference(diff: Option<int>): (r: string)
    ensures diff.None? ==> r == NoDifference
    ensures diff == Some(0) ==> r == SameHour
    ensures diff.Some? && diff.value > 0 ==> r == "+" + Show(diff.value) + "h"
    ensures diff.Some? && diff.value < 0 ==> r == "-" + Show(-diff.value) + "h"
  {
    match diff
    case None => NoDifference
    case Some(d) => if d == 0 then SameHour else (if d > 0 then "+" else "") + IntText(d) + "h"
  }

  /** Reads a difference text back: the hour count it shows, `None` for the failure marker or anything else. */
  function ParseDifference(s: string): Option<int> {
    if s == SameHour then Some(0)
    else if |s| >= 3 && (s[0] == '+' || s[0] == '-') && s[|s| - 1] == 'h' && AllDigits(s[1..|s| - 1]) then
      var n: int := Parse(s[1..|s| - 1]);
      Some(if s[0] == '+' then n else -n)
    else None
  }

  /** The difference text determines the hour difference, and the failure marker is told apart from every difference. */
  lemma DifferenceRoundTrip(diff: Option<int>)
    ensures ParseDifference(TimeDifference(diff)) == diff
  {
    match diff
    case None =>
      assert NoDifference != SameHour by { assert NoDifference[0] != SameHour[0]; }
    case Some(d) =>
      if d > 0 {
        SignedRoundTrip('+', d, TimeDifference(diff));
      } else if d < 0 {
        SignedRoundTrip('-', -d, TimeDifference(diff));
      }
  }

  /** A sign, a numeral and "h" read back as the signed number. */
  lemma SignedRoundTrip(sign: char, n: nat, s: string)
    requires sign == '+' || sign == '-'
    requires s == [sign] + Show(n) + "h"
    ensures ParseDifference(s) == Some(if sign == '+' then n as int else -(n as int))
  {
    assert s[1..|s| - 1] == Show(n);
    assert s != SameHour by { assert s[0] != SameHour[0]; }
    ParseShow(n);
  }
}

=== FILE: decimal.dfy ===
/**
 * Decimal numerals: how JavaScript writes a whole number into a template string
 * (`${n}`), and how a string of digits is read back as a number.
 */
module Decimal {

  predicate IsDigit(c: char) {
    '0' <= c <= '9'
  }

  predicate AllDigits(s: string) {
    forall i :: 0 <= i < |s| ==> IsDigit(s[i])
  }

  function DigitChar(d: nat): (c: char)
    requires d < 10
    ensures IsDigit(c)
  {
    ('0' as int + d) as char
  }

  function DigitValue(c: char): (d: nat)
    requires IsDigit(c)
    ensures d < 10 && DigitChar(d) == c
  {
    c as int - '0' as int
  }

  /** The shortest decimal numeral of `n`: non-empty, digits only, no leading zero unless `n` is 0. */
  function Show(n: nat): (r: string)
    ensures |r| >= 1 && AllDigits(r)
    ensures r[0] == '0' ==> n == 0
  {
    if n < 10 then [DigitChar(n)] else Show(n / 10) + [DigitChar(n % 10)]
  }

  /** The value of a string of decimal digits (0 for the empty string). */
  function Parse(s: string): nat
    requires AllDigits(s)
  {
    if s == [] then 0 else 10 * Parse(s[..|s| - 1]) + DigitValue(s[|s| - 1])
  }

  /** Reading back a written numeral gives the number that was written. */
  lemma {:induction false} ParseShow(n: nat)
    ensures Parse(Show(n)) == n
  {
    if n >= 10 {
      var s := Show(n);
      assert s[..|s| - 1] == Show(n / 10);
      ParseShow(n / 10);
    }
  }

  /** So different numbers are written differently. */
  lemma ShowInjective(m: nat, n: nat)
    requires Show(m) == Show(n)
    ensures m == n
  {
    ParseShow(m);
    ParseShow(n);
  }
}

=== FILE: optional.dfy ===
/** The absent-or-present value that stands for JavaScript's `undefined`/`null` results. */
module Optional {
  datatype Option<+T> = None | Some(value: T)
}

=== FILE: seqs.dfy ===
/**
 * The array operations the widget relies on: `filter`, `find`, `slice(0, n)`,
 * and the two facts about id lists it keeps: order and absence of duplicates.
 */
module Seqs {
  import opened Optional

  /** `a` can be obtained from `b` by deleting elements: `a` keeps `b`'s relative order. */
  predicate IsSubsequence<T(==)>(a: seq<T>, b: seq<T>)
    decreases |b|
  {
    a == [] || (b != [] && ((a[0] == b[0] && IsSubsequence(a[1..], b[1..])) || IsSubsequence(a, b[1..])))
  }

  /** No element occurs twice. */
  predicate Distinct<T(==)>(s: seq<T>) {
    forall i, j :: 0 <= i < j < |s| ==> s[i] != s[j]
  }

  /** `Array.prototype.filter`: the elements of `s` satisfying `p`, in their order in `s`. */
  function Filter<T(==)>(s: seq<T>, p: T -> bool): (r: seq<T>)
    ensures |r| <= |s|
    ensures forall i :: 0 <= i < |r| ==> r[i] in s && p(r[i])
    ensures forall i :: 0 <= i < |s| && p(s[i]) ==> s[i] in r
    ensures IsSubsequence(r, s)
  {
    if s == [] then []
    else if p(s[0]) then [s[0]] + Filter(s[1..], p)
    else Filter(s[1..], p)
  }

  /**
   * The index of the first element satisfying `p`, if any; `Array.prototype.find`
   * returns the element at that index, `undefined` when there is none.
   */
  function FirstIndex<T>(s: seq<T>, p: T -> bool): (r: Option<nat>)
    ensures r.Some? ==> r.value < |s| && p(s[r.value]) && forall j :: 0 <= j < r.value ==> !p(s[j])
    ensures r.None? ==> forall j :: 0 <= j < |s| ==> !p(s[j])
  {
    if s == [] then None
    else if p(s[0]) then Some(0)
    else match FirstIndex(s[1..], p)
      case None => None
      case Some(i) => Some(i + 1)
  }

  /** `s.slice(0, n)`: at most the first `n` elements. */
  function Take<T>(s: seq<T>, n: nat): (r: seq<T>)
    ensures |r| <= n && |r| <= |s|
    ensures |s| <= n ==> r == s
    ensures n <= |s| ==> |r| == n
    ensures forall i :: 0 <= i < |r| ==> r[i] == s[i]
  {
    if |s| <= n then s else s[..n]
  }

  lemma ConcatAssoc<T>(a: seq<T>, b: seq<T>, c: seq<T>)
    ensures a + b + c == a + (b + c)
  {
  }

  /** Filtering distributes over concatenation: it decides element by element, in order. */
  lemma {:induction false} FilterAppend<T>(a: seq<T>, b: seq<T>, p: T -> bool)
    ensures Filter(a + b, p) == Filter(a, p) + Filter(b, p)
  {
    if a == [] {
      assert a + b == b;
    } else {
      assert (a + b)[0] == a[0];
      assert (a + b)[1..] == a[1..] + b;
      FilterAppend(a[1..], b, p);
    }
  }

  /**
   * Filtering keeps every passing element as often as it occurs in `s` and drops
   * every failing one: element counts are those of `s` restricted to `p`.
   */
  lemma {:induction false} FilterCount<T>(s: seq<T>, p: T -> bool)
    ensures forall i :: 0 <= i < |s| ==> multiset(Filter(s, p))[s[i]] == if p(s[i]) then multiset(s)[s[i]] else 0
    ensures forall x :: x in multiset(Filter(s, p)) ==> x in multiset(s) && p(x)
  {
    if s != [] {
      var t := s[1..];
      FilterCount(t, p);
      assert s == [s[0]] + t;
      var r := Filter(s, p);
      forall i | 0 <= i < |s|
        ensures multiset(r)[s[i]] == if p(s[i]) then multiset(s)[s[i]] else 0
      {
        var x := s[i];
        if x in t {
          var j :| 0 <= j < |t| && t[j] == x;
        } else {
          assert multiset(Filter(t, p))[x] == 0;
        }
      }
    }
  }

  /**
   * The element at `k` that passes the test sits in the filtered list just after
   * the passing elements before `k`.
   */
  lemma FilterRank<T>(s: seq<T>, p: T -> bool, k: nat)
    requires k < |s| && p(s[k])
    ensures |Filter(s[..k], p)| < |Filter(s, p)|
    ensures Filter(s, p)[|Filter(s[..k], p)|] == s[k]
  {
    assert s == s[..k] + s[k..];
    FilterAppend(s[..k], s[k..], p);
    assert s[k..] == [s[k]] + s[k + 1..];
    FilterAppend([s[k]], s[k + 1..], p);
  }

  /** `slice(0, n)` after `filter` keeps every passing element preceded by fewer than `n` passing ones. */
  lemma TakeFilterFirst<T>(s: seq<T>, p: T -> bool, n: nat)
    ensures forall k :: 0 <= k < |s| && p(s[k]) && |Filter(s[..k], p)| < n ==> s[k] in Take(Filter(s, p), n)
  {
    forall k | 0 <= k < |s| && p(s[k]) && |Filter(s[..k], p)| < n
      ensures s[k] in Take(Filter(s, p), n)
    {
      FilterRank(s, p, k);
      var r := Filter(s, p);
      var j := |Filter(s[..k], p)|;
      assert Take(r, n)[j] == s[k];
    }
  }

  /** Two predicates that agree on every element of `s` filter it alike. */
  lemma {:induction false} FilterAgree<T>(s: seq<T>, p: T -> bool, q: T -> bool)
    requires forall i :: 0 <= i < |s| ==> p(s[i]) == q(s[i])
    ensures Filter(s, p) == Filter(s, q)
  {
    if s != [] {
      assert forall i :: 0 <= i < |s[1..]| ==> s[1..][i] == s[i + 1];
      FilterAgree(s[1..], p, q);
    }
  }

  /** Filtering keeps a duplicate-free list duplicate-free. */
  lemma {:induction false} FilterDistinct<T>(s: seq<T>, p: T -> bool)
    requires Distinct(s)
    ensures Distinct(Filter(s, p))
  {
    if s != [] {
      assert Distinct(s[1..]) by {
        forall i, j | 0 <= i < j < |s[1..]| ensures s[1..][i] != s[1..][j] {
          assert s[1..][i] == s[i + 1] && s[1..][j] == s[j + 1];
        }
      }
      FilterDistinct(s[1..], p);
      var rest := Filter(s[1..], p);
      if p(s[0]) {
        assert s[0] !in s[1..] by {
          forall k | 0 <= k < |s[1..]| ensures s[1..][k] != s[0] {
            assert s[1..][k] == s[k + 1];
          }
        }
        assert s[0] !in rest by {
          forall k | 0 <= k < |rest| ensures rest[k] != s[0] { assert rest[k] in s[1..]; }
        }
        var r := [s[0]] + rest;
        forall i, j | 0 <= i < j < |r| ensures r[i] != r[j] {
          if i == 0 {
            assert r[j] == rest[j - 1] && r[j] in rest;
          } else {
            assert r[i] == rest[i - 1] && r[j] == rest[j - 1];
          }
        }
      }
    }
  }

  /** A prefix of a subsequence is still a subsequence. */
  lemma {:induction false} PrefixSubsequence<T>(a: seq<T>, b: seq<T>, n: nat)
    requires IsSubsequence(a, b) && n <= |a|
    ensures IsSubsequence(a[..n], b)
    decreases |b|
  {
    if n > 0 {
      assert b != [];
      if a[0] == b[0] && IsSubsequence(a[1..], b[1..]) {
        PrefixSubsequence(a[1..], b[1..], n - 1);
        assert a[..n][0] == b[0] && a[..n][1..] == a[1..][..n - 1];
      } else {
        PrefixSubsequence(a, b[1..], n);
      }
    }
  }
}

=== FILE: text.dfy ===
/**
 * The string primitives the widget applies to names: `toLowerCase`, the regular
 * expression class `\s` with `replace(/\s+/g, '-')`, and `includes`.
 */
module Text {
  import opened Seqs

  /** The upper-case letters lower-casing changes: A-Z and U+00C0..U+00DE except U+00D7. */
  predicate IsUpper(c: char) {
    'A' <= c <= 'Z' || ('\U{00C0}' <= c <= '\U{00DE}' && c != '\U{00D7}')
  }

  /**
   * `toLowerCase` on one character, for the Basic Latin and Latin-1 Supplement
   * letters: an upper-case letter becomes the letter 0x20 above it, every other
   * character is kept as it is.
   */
  function LowerChar(c: char): char {
    if IsUpper(c) then (c as int + 0x20) as char else c
  }

  /**
   * `s.toLowerCase()`: no upper-case letter is left, every other character is kept
   * in place, and each upper-case letter becomes its lower-case partner.
   */
  function Lower(s: string): (r: string)
    ensures |r| == |s|
    ensures forall i :: 0 <= i < |r| ==> !IsUpper(r[i])
    ensures forall i :: 0 <= i < |s| && !IsUpper(s[i]) ==> r[i] == s[i]
    ensures forall i :: 0 <= i < |s| && IsUpper(s[i]) ==> r[i] as int == s[i] as int + 0x20
  {
    seq(|s|, i requires 0 <= i < |s| => LowerChar(s[i]))
  }

  /** Lower-casing twice is lower-casing once. */
  lemma LowerIdempotent(s: string)
    ensures Lower(Lower(s)) == Lower(s)
  {
    var l := Lower(s);
    forall i | 0 <= i < |l| ensures Lower(l)[i] == l[i] {
      assert !IsUpper(l[i]);
    }
  }

  /**
   * The characters matched by `\s` in an ECMAScript regular expression: the
   * WhiteSpace and LineTerminator code points (tab to carriage return, space,
   * no-break space, ogham space mark, the U+2000..U+200A spaces, the line and
   * paragraph separators, the narrow no-break space, the medium mathematical
   * space, the ideographic space and the byte order mark).
   */
  predicate IsSpace(c: char) {
    || '\t' <= c <= '\r' || c == ' ' || c == '\U{00A0}' || c == '\U{1680}'
    || '\U{2000}' <= c <= '\U{200A}' || c == '\U{2028}' || c == '\U{2029}'
    || c == '\U{202F}' || c == '\U{205F}' || c == '\U{3000}' || c == '\U{FEFF}'
  }

  predicate NoSpace(s: string) {
    forall i :: 0 <= i < |s| ==> !IsSpace(s[i])
  }

  predicate AllSpace(s: string) {
    forall i :: 0 <= i < |s| ==> IsSpace(s[i])
  }

  /** `s` with its leading `\s` characters removed. */
  function DropSpaces(s: string): (r: string)
    ensures |r| <= |s|
    ensures r == s[|s| - |r|..]
    ensures forall i :: 0 <= i < |s| - |r| ==> IsSpace(s[i])
    ensures r == [] || !IsSpace(r[0])
  {
    if s != [] && IsSpace(s[0]) then
      var r := DropSpaces(s[1..]);
      assert s[|s| - |r|..] == s[1..][|s| - 1 - |r|..];
      r
    else s
  }

  /** `s` with its trailing `\s` characters removed. */
  function DropTrailingSpaces(s: string): (r: string)
    ensures |r| <= |s|
    ensures r == s[..|r|]
    ensures forall i :: |r| <= i < |s| ==> IsSpace(s[i])
    ensures r == [] || !IsSpace(r[|r| - 1])
  {
    if s != [] && IsSpace(s[|s| - 1]) then
      var r := DropTrailingSpaces(s[..|s| - 1]);
      assert s[..|r|] == s[..|s| - 1][..|r|];
      r
    else s
  }

  /** `s.trim()`: both ends stripped of `\s` characters. */
  function Trim(s: string): string {
    DropTrailingSpaces(DropSpaces(s))
  }

  /** `s.replace(/\s+/g, '-')`: every maximal run of `\s` characters becomes one '-'. */
  function DashSpaces(s: string): (r: string)
    ensures NoSpace(r)
    ensures |r| <= |s|
    decreases |s|
  {
    if s == [] then []
    else if IsSpace(s[0]) then
      var rest := DashSpaces(DropSpaces(s[1..]));
      NoSpaceCons('-', rest);
      "-" + rest
    else
      var rest := DashSpaces(s[1..]);
      NoSpaceCons(s[0], rest);
      [s[0]] + rest
  }

  lemma NoSpaceCons(c: char, t: string)
    requires !IsSpace(c) && NoSpace(t)
    ensures NoSpace([c] + t)
  {
    forall i | 0 <= i < |[c] + t| ensures !IsSpace(([c] + t)[i]) {
      if i > 0 { assert ([c] + t)[i] == t[i - 1]; }
    }
  }

  /** `hay.includes(needle)`: `needle` occurs in `hay` at some position. */
  predicate Contains(hay: string, needle: string)
    decreases |hay|
  {
    needle <= hay || (hay != [] && Contains(hay[1..], needle))
  }

  /** Lower-casing works character by character, so it distributes over concatenation. */
  lemma LowerAppend(a: string, b: string)
    ensures Lower(a + b) == Lower(a) + Lower(b)
  {
  }

  /** Lower-casing maps no character to or from `\s`, so it keeps a space-free string space-free. */
  lemma LowerNoSpace(s: string)
    requires NoSpace(s)
    ensures NoSpace(Lower(s))
  {
    forall i | 0 <= i < |s| ensures !IsSpace(Lower(s)[i]) {
      assert Lower(s)[i] == LowerChar(s[i]);
    }
  }

  /** A string without `\s` characters is left alone by `DashSpaces`. */
  lemma {:induction false} DashSpacesNoSpace(s: string)
    requires NoSpace(s)
    ensures DashSpaces(s) == s
  {
    if s != [] {
      assert !IsSpace(s[0]);
      NoSpaceTail(s);
      DashSpacesNoSpace(s[1..]);
      assert s == [s[0]] + s[1..];
    }
  }

  /**
   * The run-replacement law: a space-free word `w`, then a non-empty run of `\s`,
   * then a rest that does not start with `\s`, becomes `w`, one '-', and the rest
   * treated alike.
   */
  lemma {:induction false} DashSpacesRun(w: string, run: string, rest: string)
    requires NoSpace(w) && run != [] && AllSpace(run)
    requires rest == [] || !IsSpace(rest[0])
    ensures DashSpaces(w + run + rest) == w + "-" + DashSpaces(rest)
  {
    ConcatAssoc(w, run, rest);
    DashSpacesWord(w, run + rest);
    DashSpacesRunStart(run, rest);
    ConcatAssoc(w, "-", DashSpaces(rest));
  }

  /** A space-free word in front is copied as it is. */
  lemma {:induction false} DashSpacesWord(w: string, t: string)
    requires NoSpace(w)
    ensures DashSpaces(w + t) == w + DashSpaces(t)
    decreases |w|
  {
    if w == [] {
      assert w + t == t;
    } else {
      assert w + t == [w[0]] + (w[1..] + t);
      DashSpacesKeeps(w[0], w[1..] + t);
      NoSpaceTail(w);
      DashSpacesWord(w[1..], t);
      assert w == [w[0]] + w[1..];
    }
  }

  /** A character that is not `\s` is copied as it is. */
  lemma DashSpacesKeeps(c: char, tail: string)
    requires !IsSpace(c)
    ensures DashSpaces([c] + tail) == [c] + DashSpaces(tail)
  {
    assert ([c] + tail)[1..] == tail;
  }

  /** The run-replacement law for a run at the very start. */
  lemma DashSpacesRunStart(run: string, rest: string)
    requires run != [] && AllSpace(run)
    requires rest == [] || !IsSpace(rest[0])
    ensures DashSpaces(run + rest) == "-" + DashSpaces(rest)
  {
    var s := run + rest;
    assert s[0] == run[0] && IsSpace(run[0]);
    assert s[1..] == run[1..] + rest;
    AllSpaceTail(run);
    DropSpacesOver(run[1..], rest);
  }

  lemma NoSpaceTail(w: string)
    requires w != [] && NoSpace(w)
    ensures NoSpace(w[1..])
  {
    forall i | 0 <= i < |w[1..]| ensures !IsSpace(w[1..][i]) { assert w[1..][i] == w[i + 1]; }
  }

  lemma AllSpaceTail(run: string)
    requires run != [] && AllSpace(run)
    ensures AllSpace(run[1..])
  {
    forall i | 0 <= i < |run[1..]| ensures IsSpace(run[1..][i]) { assert run[1..][i] == run[i + 1]; }
  }

  /** Dropping leading spaces from a run of spaces followed by a non-space start leaves that start. */
  lemma {:induction false} DropSpacesOver(run: string, rest: string)
    requires AllSpace(run)
    requires rest == [] || !IsSpace(rest[0])
    ensures DropSpaces(run + rest) == rest
    decreases |run|
  {
    if run == [] {
      assert run + rest == rest;
    } else {
      assert (run + rest)[0] == run[0];
      assert (run + rest)[1..] == run[1..] + rest;
      AllSpaceTail(run);
      DropSpacesOver(run[1..], rest);
    }
  }

  /** The empty string occurs in every string, so `includes('')` always holds. */
  lemma ContainsEmpty(hay: string)
    ensures Contains(hay, "")
  {
  }

  /** `needle` occurs in `hay` starting at position `k`. */
  predicate OccursAt(hay: string, needle: string, k: nat) {
    k + |needle| <= |hay| && hay[k..k + |needle|] == needle
  }

  /** Whenever some window of `hay` equals `needle`, `Contains` (that is, `includes`) holds. */
  lemma {:induction false} ContainsAt(hay: string, needle: string, k: nat)
    requires OccursAt(hay, needle, k)
    ensures Contains(hay, needle)
    decreases k
  {
    if k == 0 {
      assert needle <= hay;
    } else {
      assert hay[1..][k - 1..k - 1 + |needle|] == hay[k..k + |needle|];
      ContainsAt(hay[1..], needle, k - 1);
    }
  }

  /** Conversely, when `Contains` holds, some window of `hay` equals `needle`. */
  lemma {:induction false} ContainsOccurs(hay: string, needle: string) returns (k: nat)
    requires Contains(hay, needle)
    ensures OccursAt(hay, needle, k)
    decreases |hay|
  {
    if needle <= hay {
      k := 0;
      assert hay[..|needle|] == needle;
    } else {
      var j := ContainsOccurs(hay[1..], needle);
      k := j + 1;
      assert hay[1..][j..j + |needle|] == hay[k..k + |needle|];
    }
  }

  /** `includes` holds exactly when some window of `hay` equals `needle`. */
  lemma ContainsWindow(hay: string, needle: string)
    ensures Contains(hay, needle) <==> exists k :: OccursAt(hay, needle, k)
  {
    if Contains(hay, needle) {
      var k := ContainsOccurs(hay, needle);
    }
    if exists k :: OccursAt(hay, needle, k) {
      var k :| OccursAt(hay, needle, k);
      ContainsAt(hay, needle, k);
    }
  }
}

=== FILE: widget.dfy ===
/**
 * The `WorldClock` controller: the catalog and the active selection it holds, and
 * the operations that change them or read them for the city picker.
 */
module Widget {
  import opened Optional
  import opened Seqs
  import opened Text
  import opened Catalog

  /** The selection after adding `id`: appended at the end unless it is already there. */
  function Added(ids: seq<string>, id: string): (r: seq<string>)
    ensures |r| == if id in ids then |ids| else |ids| + 1
    ensures r[..|ids|] == ids
    ensures id in r
    ensures Distinct(ids) ==> Distinct(r)
  {
    if id in ids then ids else ids + [id]
  }

  /** The selection after removing `id`: every occurrence goes, the other ids stay in order. */
  function Removed(ids: seq<string>, id: string): (r: seq<string>)
    ensures id !in r
    ensures forall i :: 0 <= i < |ids| && ids[i] != id ==> ids[i] in r
    ensures forall i :: 0 <= i < |r| ==> r[i] in ids
    ensures IsSubsequence(r, ids)
    ensures forall x :: x != id ==> multiset(r)[x] == multiset(ids)[x]
    ensures Distinct(ids) ==> Distinct(r)
  {
    FilterDistinctIf(ids, id);
    FilterCount(ids, other => other != id);
    Filter(ids, other => other != id)
  }

  lemma FilterDistinctIf(ids: seq<string>, id: string)
    ensures Distinct(ids) ==> Distinct(Filter(ids, other => other != id))
  {
    if Distinct(ids) { FilterDistinct(ids, other => other != id); }
  }

  /** Removing an id that occurs once leaves exactly the ids around it, in order. */
  lemma {:induction false} RemovedSingle(before: seq<string>, id: string, after: seq<string>)
    requires id !in before && id !in after
    ensures Removed(before + [id] + after, id) == before + after
  {
    var p := (other: string) => other != id;
    FilterAppend(before + [id], after, p);
    FilterAppend(before, [id], p);
    FilterUnchanged(before, id);
    FilterUnchanged(after, id);
  }

  /** Removing an absent id changes nothing. */
  lemma {:induction false} FilterUnchanged(ids: seq<string>, id: string)
    requires id !in ids
    ensures Removed(ids, id) == ids
  {
    if ids != [] {
      assert ids[0] != id && id !in ids[1..];
      FilterUnchanged(ids[1..], id);
      assert ids == [ids[0]] + ids[1..];
    }
  }

  /** Adding a new id and removing it again restores the selection. */
  lemma AddThenRemove(ids: seq<string>, id: string)
    requires id !in ids
    ensures Removed(Added(ids, id), id) == ids
  {
    RemovedSingle(ids, id, []);
    assert ids + [id] + [] == ids + [id];
    assert ids + [] == ids;
  }

  /** The names looked up, in order, to build the default selection. */
  const DefaultNames: seq<string> := ["Paris", "New York", "Tokyo", "London"]

  /** The selection used when the catalog has none of the default names. */
  const FixedIds: seq<string> := ["fr-paris", "us-new-york", "jp-tokyo", "gb-london"]

  /** The catalog installed alongside that selection. */
  const FixedCatalog: seq<City> := [
    City("fr-paris", "Paris", "Europe/Paris", "France", "FR"),
    City("us-new-york", "New York", "America/New_York", "\U{00C9}tats-Unis", "US"),
    City("jp-tokyo", "Tokyo", "Asia/Tokyo", "Japon", "JP"),
    City("gb-london", "London", "Europe/London", "Royaume-Uni", "GB")]

  /** `allCities.find(c => c.name === name)`: the first city so named, if any. */
  function CityNamed(cities: seq<City>, name: string): (r: Option<City>)
    ensures r.Some? ==> r.value.name == name
    ensures r.Some? ==> exists i :: 0 <= i < |cities| && cities[i] == r.value
                          && forall j :: 0 <= j < i ==> cities[j].name != name
    ensures r.None? ==> forall k :: 0 <= k < |cities| ==> cities[k].name != name
  {
    match FirstIndex(cities, (c: City) => c.name == name)
    case None => None
    case Some(i) => Some(cities[i])
  }

  /** The ids the default lookup appends: for each name in order, the first city so named, if any. */
  function FoundIds(cities: seq<City>, names: seq<string>): (r: seq<string>)
    ensures |r| <= |names|
    ensures forall k :: 0 <= k < |r| ==> r[k] in IdsOf(cities)
  {
    if names == [] then []
    else
      var found := CityNamed(cities, names[|names| - 1]);
      FoundIds(cities, names[..|names| - 1]) + (if found.Some? then [found.value.id] else [])
  }

  lemma FoundIdsStep(cities: seq<City>, names: seq<string>, i: nat)
    requires i < |names|
    ensures FoundIds(cities, names[..i + 1]) == FoundIds(cities, names[..i]) +
              (if CityNamed(cities, names[i]).Some? then [CityNamed(cities, names[i]).value.id] else [])
  {
    assert names[..i + 1][..i] == names[..i];
  }

  /** The lookup for one name: the id of the first city bearing it, or nothing. */
  lemma FoundIdsSingle(cities: seq<City>, name: string)
    ensures FoundIds(cities, [name]) == if CityNamed(cities, name).Some? then [CityNamed(cities, name).value.id] else []
  {
    assert [name][..0] == [];
  }

  /**
   * Looking up `a` then `b` appends the ids found for `a`, then those found for
   * `b`: each name contributes its own id, or nothing, in name order.
   */
  lemma {:induction false} FoundIdsAppend(cities: seq<City>, a: seq<string>, b: seq<string>)
    ensures FoundIds(cities, a + b) == FoundIds(cities, a) + FoundIds(cities, b)
  {
    if b == [] {
      assert a + b == a;
    } else {
      var n := |b| - 1;
      var ab, found := a + b, CityNamed(cities, b[n]);
      var extra := if found.Some? then [found.value.id] else [];
      FoundIdsAppend(cities, a, b[..n]);
      assert ab[..|ab| - 1] == a + b[..n];
      assert ab[|ab| - 1] == b[n];
      assert FoundIds(cities, ab) == FoundIds(cities, a + b[..n]) + extra;
      assert FoundIds(cities, b) == FoundIds(cities, b[..n]) + extra;
      ConcatAssoc(FoundIds(cities, a), FoundIds(cities, b[..n]), extra);
    }
  }

  /**
   * Four names of which the second is borne by no city, as on the live directory,
   * where no capital is named New York: the ids of the first, third and fourth
   * name's first cities, in that order.
   */
  lemma {:induction false} FoundIdsSecondMissing(cities: seq<City>, names: seq<string>)
    requires |names| == 4 && CityNamed(cities, names[1]).None?
    requires CityNamed(cities, names[0]).Some? && CityNamed(cities, names[2]).Some? && CityNamed(cities, names[3]).Some?
    ensures FoundIds(cities, names) ==
              [CityNamed(cities, names[0]).value.id, CityNamed(cities, names[2]).value.id, CityNamed(cities, names[3]).value.id]
  {
    assert names[..0] == [];
    FoundIdsStep(cities, names, 0);
    FoundIdsStep(cities, names, 1);
    FoundIdsStep(cities, names, 2);
    FoundIdsStep(cities, names, 3);
    assert names[..4] == names;
  }

  /** When every name is borne by some city, there is one id per name, in order: the id of the first city so named. */
  lemma {:induction false} FoundIdsAll(cities: seq<City>, names: seq<string>)
    requires forall k :: 0 <= k < |names| ==> CityNamed(cities, names[k]).Some?
    ensures |FoundIds(cities, names)| == |names|
    ensures forall k :: 0 <= k < |names| ==> FoundIds(cities, names)[k] == CityNamed(cities, names[k]).value.id
  {
    if names != [] {
      var n := |names| - 1;
      var init := names[..n];
      assert forall k :: 0 <= k < n ==> CityNamed(cities, init[k]).Some? by {
        forall k | 0 <= k < n ensures CityNamed(cities, init[k]).Some? { assert init[k] == names[k]; }
      }
      FoundIdsAll(cities, init);
      var before, city := FoundIds(cities, init), CityNamed(cities, names[n]).value;
      assert FoundIds(cities, names) == before + [city.id];
      forall k | 0 <= k < |names| ensures FoundIds(cities, names)[k] == CityNamed(cities, names[k]).value.id {
        if k < n {
          assert init[k] == names[k];
          assert (before + [city.id])[k] == before[k];
        }
      }
    }
  }

  /** When no city bears any of the names, nothing is appended. */
  lemma {:induction false} FoundIdsNone(cities: seq<City>, names: seq<string>)
    requires forall k :: 0 <= k < |names| ==> CityNamed(cities, names[k]).None?
    ensures FoundIds(cities, names) == []
  {
    if names != [] {
      var n := |names| - 1;
      assert forall k :: 0 <= k < n ==> names[..n][k] == names[k];
      FoundIdsNone(cities, names[..n]);
    }
  }

  /** An id is appended exactly when it is the id of the first city bearing one of the names. */
  lemma {:induction false} FoundIdsMembers(cities: seq<City>, names: seq<string>, id: string)
    ensures id in FoundIds(cities, names) <==>
              exists k :: 0 <= k < |names| && CityNamed(cities, names[k]).Some? && CityNamed(cities, names[k]).value.id == id
  {
    if names != [] {
      var n := |names| - 1;
      FoundIdsMembers(cities, names[..n], id);
      assert forall k :: 0 <= k < n ==> names[..n][k] == names[k];
      if id in FoundIds(cities, names) && id !in FoundIds(cities, names[..n]) {
        assert CityNamed(cities, names[n]).Some? && CityNamed(cities, names[n]).value.id == id;
      }
    }
  }

  /** The fixed selection names only cities of the fixed catalog. */
  lemma FixedIdsInCatalog()
    ensures forall k :: 0 <= k < |FixedIds| ==> FixedIds[k] in IdsOf(FixedCatalog)
  {
    forall k | 0 <= k < |FixedIds| ensures FixedIds[k] in IdsOf(FixedCatalog) {
      assert FixedCatalog[k] in FixedCatalog && FixedCatalog[k].id == FixedIds[k];
    }
  }

  /** The default lookup, run on the fixed catalog, picks exactly the fixed selection. */
  lemma FixedDefaultsAgree()
    ensures FoundIds(FixedCatalog, DefaultNames) == FixedIds
  {
    var names := DefaultNames;
    assert CityNamed(FixedCatalog, "Paris") == Some(FixedCatalog[0]);
    assert CityNamed(FixedCatalog, "New York") == Some(FixedCatalog[1]);
    assert CityNamed(FixedCatalog, "Tokyo") == Some(FixedCatalog[2]);
    assert CityNamed(FixedCatalog, "London") == Some(FixedCatalog[3]);
    assert names[..3][..2][..1][..0] == [];
    assert FoundIds(FixedCatalog, names[..1]) == ["fr-paris"];
    assert FoundIds(FixedCatalog, names[..2]) == ["fr-paris", "us-new-york"];
    assert names[..3][..2] == names[..2] && names[..3][2] == "Tokyo";
    assert FoundIds(FixedCatalog, names[..3]) == ["fr-paris", "us-new-york", "jp-tokyo"];
    assert names[..3] == names[..|names| - 1] && names[3] == "London";
  }

  class WorldClock {
    /** The catalog of selectable cities. */
    var allCities: seq<City>
    /** The ids of the displayed cities, in display order. */
    var activeCities: seq<string>

    constructor ()
      ensures allCities == [] && activeCities == []
    {
      allCities := [];
      activeCities := [];
    }

    /** `addCity`: append `id` unless it is already active; the catalog is untouched. */
    method AddCity(id: string)
      modifies this
      ensures activeCities == Added(old(activeCities), id)
      ensures allCities == old(allCities)
    {
      if id !in activeCities {
        activeCities := activeCities + [id];
      }
    }

    /** `removeCity`: keep every active id other than `id`; the catalog is untouched. */
    method RemoveCity(id: string)
      modifies this
      ensures activeCities == Removed(old(activeCities), id)
      ensures allCities == old(allCities)
    {
      activeCities := Removed(activeCities, id);
    }

    /**
     * The catalog-building loop of `loadAllCitiesFromAPI`, given the decoded
     * country records, the runtime's time zone check and its French name order.
     */
    method LoadCatalog(countries: seq<Country>, isValid: string -> bool, precedes: (string, string) -> bool)
      requires TotalPreorder(precedes)
      modifies this
      ensures multiset(allCities) == multiset(BuildCatalog(countries, isValid))
      ensures SortedByName(allCities, precedes)
      ensures activeCities == old(activeCities)
    {
      allCities := [];
      for i := 0 to |countries|
        invariant allCities == BuildCatalog(countries[..i], isValid)
        invariant activeCities == old(activeCities)
      {
        var country := countries[i];
        BuildCatalogLast(countries[..i + 1], isValid);
        assert countries[..i + 1][..i] == countries[..i];
        if country.capitals.Some? && country.timezones.Some? {
          var tz := ResolveTimezone(country.timezones.value, country.code, isValid);
          if tz.Some? {
            AppendCapitals(country, country.capitals.value, tz.value);
            ContributionResolved(country, isValid, tz.value);
          } else {
            assert Contribution(country, isValid) == [];
          }
        } else {
          assert Contribution(country, isValid) == [];
        }
      }
      assert countries[..|countries|] == countries;
      allCities := SortByName(allCities, precedes);
    }

    /** The inner loop of the catalog build: one city per capital, appended in order. */
    method AppendCapitals(country: Country, capitals: seq<string>, tz: string)
      modifies this
      ensures allCities == old(allCities) + CapitalCities(country, capitals, tz)
      ensures activeCities == old(activeCities)
    {
      for k := 0 to |capitals|
        invariant allCities == old(allCities) + CapitalCities(country, capitals[..k], tz)
        invariant activeCities == old(activeCities)
      {
        CapitalCitiesStep(country, capitals, k, tz);
        allCities := allCities + [CapitalCity(country, capitals[k], tz)];
      }
      assert capitals[..|capitals|] == capitals;
    }

    /**
     * `setDefaultCities`: append the id of the first city named Paris, New York,
     * Tokyo and London, in that order; if the selection is still empty, install
     * the fixed selection and the fixed catalog instead.
     */
    method SetDefaultCities()
      modifies this
      ensures var found := old(activeCities) + FoundIds(old(allCities), DefaultNames);
              if found == [] then activeCities == FixedIds && allCities == FixedCatalog
              else activeCities == found && allCities == old(allCities)
      ensures old(activeCities) == [] ==> forall k :: 0 <= k < |activeCities| ==> activeCities[k] in IdsOf(allCities)
    {
      AppendFound(DefaultNames);
      if |activeCities| == 0 {
        activeCities := FixedIds;
        allCities := FixedCatalog;
        FixedIdsInCatalog();
      }
    }

    /** The lookup loop of `setDefaultCities`: the ids found for `names`, appended in order. */
    method AppendFound(names: seq<string>)
      modifies this
      ensures activeCities == old(activeCities) + FoundIds(allCities, names)
      ensures allCities == old(allCities)
    {
      for i := 0 to |names|
        invariant activeCities == old(activeCities) + FoundIds(allCities, names[..i])
        invariant allCities == old(allCities)
      {
        FoundIdsStep(allCities, names, i);
        var city := CityNamed(allCities, names[i]);
        if city.Some? {
          activeCities := activeCities + [city.value.id];
        }
      }
      assert names[..|names|] == names;
    }

    /**
     * The selection step of `init`: the stored selection when storage held one
     * (`None` when the key is absent or empty), the defaults otherwise.
     */
    method RestoreSelection(saved: Option<seq<string>>)
      modifies this
      ensures saved.Some? ==> activeCities == saved.value && allCities == old(allCities)
      ensures saved.None? ==>
                var found := old(activeCities) + FoundIds(old(allCities), DefaultNames);
                if found == [] then activeCities == FixedIds && allCities == FixedCatalog
                else activeCities == found && allCities == old(allCities)
    {
      if saved.Some? {
        activeCities := saved.value;
      } else {
        SetDefaultCities();
      }
    }

    /**
     * The result list of `filterCities`: the first 30 catalog cities, in catalog
     * order, that are not active and whose lower-cased name or country contains
     * the lower-cased term.
     */
    function FilterCities(term: string): (r: seq<City>)
      reads this
      ensures |r| <= 30
      ensures forall k :: 0 <= k < |r| ==> r[k].id !in activeCities && Matches(r[k], term)
      ensures IsSubsequence(r, allCities)
      ensures |r| < 30 ==> forall k :: (0 <= k < |allCities| && allCities[k].id !in activeCities
                             && Matches(allCities[k], term)) ==> allCities[k] in r
      ensures forall k :: (0 <= k < |allCities| && allCities[k].id !in activeCities && Matches(allCities[k], term)
                && |Filter(allCities[..k], Eligible(activeCities, term))| < 30) ==> allCities[k] in r
    {
      var found := Filter(allCities, Eligible(activeCities, term));
      TakeFilterFirst(allCities, Eligible(activeCities, term), 30);
      PrefixSubsequence(found, allCities, |Take(found, 30)|);
      Take(found, 30)
    }
  }

  /**
   * The test `filterCities` applies to each catalog city: never an active one, only
   * a matching one, and with the empty term every inactive one.
   */
  function Eligible(active: seq<string>, term: string): (r: City -> bool)
    ensures forall c: City :: c.id in active ==> !r(c)
    ensures forall c: City :: r(c) ==> Matches(c, term)
    ensures term == "" ==> forall c: City :: r(c) <==> Inactive(active)(c)
  {
    (c: City) => c.id !in active && Matches(c, term)
  }

  /** The test left when the term is empty. */
  function Inactive(active: seq<string>): City -> bool {
    (c: City) => c.id !in active
  }

  /**
   * The search test of `filterCities` (the active-id test aside): the lower-cased
   * term occurs somewhere in the lower-cased name or country; the empty term
   * matches every city.
   */
  function Matches(c: City, term: string): (r: bool)
    ensures r <==> (exists k :: OccursAt(Lower(c.name), Lower(term), k))
                   || (exists k :: OccursAt(Lower(c.country), Lower(term), k))
    ensures term == "" ==> r
  {
    ContainsWindow(Lower(c.name), Lower(term));
    ContainsWindow(Lower(c.country), Lower(term));
    ContainsEmpty(Lower(c.name));
    Contains(Lower(c.name), Lower(term)) || Contains(Lower(c.country), Lower(term))
  }

  /** With the empty term, as when the picker opens, the list is the first 30 inactive catalog cities. */
  lemma OpenPickerLists(w: WorldClock)
    ensures w.FilterCities("") == Take(Filter(w.allCities, Inactive(w.activeCities)), 30)
  {
    FilterAgree(w.allCities, Eligible(w.activeCities, ""), Inactive(w.activeCities));
  }
}
